=== FILE: README.md ===
# Chat notification dispatch and device-token reconciliation

A Dafny model of the Cloud Functions of a chat application
(`functions/index.js`). The functions react to Firestore document events:
a message created, a message deleted, a read receipt created, and a user
profile updated. For the message events they look up the participant's user
document by phone number and send a push notification to the device token
stored there. When the push transport says the token is permanently dead,
they overwrite the user's `device_instance_id` with the string `"null"`.
For a profile update they copy the public fields of the user document to
`public_profile/{phone_number}`.

Firestore and Firebase Cloud Messaging are replaced by values:

- The `users` collection is a sequence of documents (`Users.Collection`), in
  the order a query without an explicit ordering returns them. The model
  does not assume that order is by id, or that ids are unique; a token
  write reaches every document with the written id. Every field of a user
  document is optional, because the handlers' behaviour depends on fields
  being absent.
- The push transport is a function argument (`Dispatch.Transport`). It maps
  a token and a payload either to a rejection or to a sequence of results.
  Each result is an optional error code.
- The receipts sub-collections are a set of receipt paths
  (`Handlers.ReceiptPath`). The public profiles are a map from document id
  to profile (`Profiles.PublicProfiles`).
- Each handler is a pure function. It returns the new database, the
  externally visible effects in the order performed (`Dispatch.Effect`:
  transport calls, token writes, receipt deletes), and whether its promise
  resolved (`Completed`) or rejected (`Aborted` with the reason).

Modules:

- `option.dfy`: `Optional.Option`.
- `users.dfy`: user documents, the phone-number query, first-match
  resolution, the token write.
- `payloads.dfy`: the four data payloads and their decoding.
- `reconciler.dfy`: the classification of delivery results and the token
  write they trigger.
- `dispatch.dfy`: one notification branch (resolve, send, reconcile) and
  two branches in sequence.
- `handlers.dfy`: `onCreateMessage`, `onDeleteMessage`,
  `onCreateMessageReceipt`.
- `profiles.dfy`: `updatePublicUserProfile`.

Decisions worth knowing:

- Resolution takes the first matching document (`docs[0]`), as the code
  does. A design that refuses ambiguous phone numbers would be safer.
  The code does not do that, so the model does not either.
- An absent or empty device token makes `sendToDevice` throw before it calls
  the network. The branch then rejects and nothing is sent (`TokenRefused`).
- The token write targets the document whose id is the record's `uid`
  field. If that field is absent, or names no document, `update` rejects
  and the handler's promise rejects (`TokenWriteRejected`). For
  `onCreateMessage` this means the sender is never notified.
- In `onCreateMessage` both queries are issued (lines 87-88) before the
  receiver's token write, so the model resolves both recipients against
  the store as the handler found it. The sender's token write, if any,
  goes to the store the receiver branch left.
  `Handlers.SenderLookupUnaffectedByReceiverRepair` shows that the choice
  of view is irrelevant unless the sender resolves to the document the
  receiver branch cleared. In that case the model fixes the outcome of the
  early lookup: the sender is sent the token as it was before the write.
- `onCreateMessageReceipt` issues the receipt delete (lines 261-262) before
  it reads the query result. The receipt is therefore deleted even when no
  user document has the sender's number. Only the user store is left
  unwritten in that case. (The receipt's `sender` field itself is assumed
  present; see "Left out".)
- The delivery timestamp of `onDeleteMessage` is a parameter: the clock
  reading, already rendered as a string. All other timestamps are also
  carried as the strings the template literals produce.

## Model

| member | source | states |
|---|---|---|
| Users.Query | functions/index.js:87-88 | the phone-number query returns exactly the documents whose `phone_number` equals the number, none other |
| Users.Resolve | functions/index.js:97-100 | the recipient is a matching document; there is none exactly when no document has that phone number |
| Users.ResolveIsFirstMatch | functions/index.js:98 | `docs[0]`: the resolved recipient is the earliest matching document in query order, whatever matches follow |
| Users.ResolveAfterClear | functions/index.js:87-88 | clearing a token never changes which document a phone query selects; only that document's own token can differ |
| Users.OnlyTokensClearedTransitive | functions/index.js:134-136 | successive token writes together still change nothing but device tokens, and those only to "null" |
| Users.ClearedStaysCleared | functions/index.js:178-180 | after a token is cleared, later token writes cannot give that document a live token again |
| Reconciler.TokenRemoved | functions/index.js:116-132 | the `tokenRemoved` flag after the scan is set exactly when some result carries one of the two permanent error codes |
| Reconciler.Reconcile | functions/index.js:116-139 | no write unless a permanent code occurs; a write changes only the `device_instance_id` of the document whose id is the user's uid, to "null"; it rejects when that uid is absent or names no document |
| Reconciler.ReconcileIdempotent | functions/index.js:134-136 | reconciling twice with the same permanent result leaves the store one reconciliation left |
| Reconciler.ReconcileClearedIsNoop | functions/index.js:127-135 | reconciling a user whose token is already "null" leaves the store unchanged |
| Payloads.Encode | functions/index.js:103-111 | each payload has exactly the documented key set of its action, with the action name under `action` |
| Payloads.DecodeEncode | functions/index.js:103-111 | a payload loses no event field: a client recovers the notification exactly |
| Payloads.EncodeDecode | functions/index.js:103-111 | a payload that decodes holds no key or value beyond the notification it names |
| Payloads.EncodeInjective | functions/index.js:80-81 | different notifications never produce the same payload |
| Handlers.ReceivedPayload | functions/index.js:103-111 | `NEW_MESSAGE_RECEIVED` payload: keys action, sender, conversation_id, message_id, message_timestamp, each holding the event's value |
| Handlers.SentPayload | functions/index.js:147-154 | `NEW_MESSAGE_SENT` payload: keys action, receiver, conversation_id, message_id |
| Handlers.DeliveredPayload | functions/index.js:210-218 | `NEW_MESSAGE_DELIVERED` payload: keys action, receiver, conversation_id, message_id, delivery_timestamp (the clock reading) |
| Handlers.ReadPayload | functions/index.js:275-282 | `NEW_MESSAGE_READ` payload: keys action, conversation_id, message_id, read_timestamp |
| Handlers.PayloadsOfDifferentKindsDiffer | functions/index.js:80-81 | the received and sent payloads of one message differ |
| Dispatch.NotifyRecipient | functions/index.js:204-245 | one branch: no match means no send and no write; a resolved recipient with a usable token is always sent to, and the only send goes to that token with the branch's payload; each failure is tied to its cause: an absent or empty token, a rejected call, a needed write with no document; it finishes exactly when none of these happens; the store changes only by clearing the resolved user's token, and only after a permanent error |
| Dispatch.Chain | functions/index.js:97-182 | two branches in sequence: a first branch that fails is all that happens; a missing second recipient is the failure when the first completes; every send goes either first to the first recipient with the first payload or later to the second recipient with the second payload; once the first branch completes, a second recipient with a usable token is always sent to, even if that branch then fails; a document is written only when it is a recipient's uid document and that recipient's send reported a permanent code (for the second, only after the first completed), and only its token changes |
| Dispatch.ChainClearsDeadTokens | functions/index.js:113-181 | once the first branch completes, its trace opens the chain's and its token is cleared at position 1 exactly when its send reported a permanent code, whatever the second branch does; once the chain completes, the second recipient's token is cleared as the last effect exactly when its send reported one; each cleared token is "null" in the final store |
| Dispatch.SecondNotifiedOnlyAfterFirstBranch | functions/index.js:140-157 | a second-branch notification occurs only after the first branch finished: first notification at position 0, the first recipient's token write (if any) at position 1 |
| Dispatch.SnapshotAgreesAfterClear | functions/index.js:88 | resolving against the early snapshot or the store after another user's token was cleared gives the same branch |
| Handlers.OnCreateMessage | functions/index.js:76-183 | receipts untouched; a participant's token is cleared only when that participant's send reported a permanent code, the sender's only after the receiver branch completed; no receiver means no effect and no write; `NEW_MESSAGE_RECEIVED` goes first, to the receiver's token, and `NEW_MESSAGE_SENT` only later, to the sender's; an unmatched sender is never notified and is the failure once the receiver branch completed, while a sender with a usable token is then always sent to; completes exactly when both branches complete, with both participants looked up in the store as the handler found it and the sender's write going to the store the receiver branch left |
| Handlers.OnDeleteMessage | functions/index.js:189-246 | at most two effects and at most one notification, `NEW_MESSAGE_DELIVERED` to the resolved sender's token, always made when that token is usable and always made before completing; no sender means no effect and no write; the sender's token is cleared exactly when the run completes after a send that reported a permanent code, and that write, to the document named by the sender's uid, is the only one; a failed run writes nothing |
| Handlers.OnCreateMessageReceipt | functions/index.js:252-310 | the receipt at the event's path is deleted first, on every run (the receipt's `sender` field being present); at most one notification follows, `NEW_MESSAGE_READ` to the resolved sender's token, made whenever that token is usable and whenever the handler completes; no sender means only the delete; the sender's token is cleared exactly when the run completes after a send that reported a permanent code, and that write, to the document named by the sender's uid, is the only user write; a failed run writes no user document |
| Handlers.SenderNotifiedOnlyAfterReceiverBranch | functions/index.js:97-157 | `NEW_MESSAGE_SENT` goes out only after the receiver was notified and, if its token was dead, after the receiver's token was cleared |
| Handlers.SenderLookupUnaffectedByReceiverRepair | functions/index.js:87-88 | unless both participants resolve to the cleared document, the sender branch is the same whether the lookup sees the receiver's write or not |
| Handlers.MessageCreatedClearsDeadTokens | functions/index.js:113-181 | once the receiver branch completes, the receiver's token is cleared right after its notification exactly when that send reported a permanent code, even if the sender then fails; a completed handler clears the sender's token last exactly when the sender's send reported one; each cleared token ends as "null" |
| Handlers.DeletedMessageEvictsSenderToken | functions/index.js:220-245 | deleted message with a dead sender token: one delivered notification to the sender, then the sender's token set to "null", and the handler completes |
| Handlers.MessageCreatedBothDelivered | functions/index.js:113-156 | both sends succeed: exactly two notifications, receiver first, and no write |
| Handlers.ReceiverTokenEvictedSenderStillNotified | functions/index.js:114-157 | a dead receiver token is cleared to "null" before the sender is notified, and the sender is still notified, at the token its lookup returned |
| Handlers.ReadReceiptEvictsSenderToken | functions/index.js:262-308 | read receipt with a dead sender token: receipt deleted, one read notification, then the sender's token set to "null" |
| Profiles.UpdatePublicUserProfile | functions/index.js:37-70 | an absent document writes nothing; a complete one writes `public_profile/{phone}` with number = phone, server_id = uid and the other six fields copied, and no other profile changes |
| Profiles.ProjectIsLossless | functions/index.js:44-53 | the projection is a field-for-field copy: a complete record and its profile determine each other |
| Profiles.UpdateKeepsKeyedByNumber | functions/index.js:46-55 | every public profile stays stored under its own `number` |
| Profiles.UpdateIdempotent | functions/index.js:55-57 | a redelivered update event leaves the same profiles as one delivery |

## Left out

- `newAccountCreation` (lines 10-32) is not modelled. It merges two fields into a user document in an opaque store, and it calls `admin.auth().updateUser`, which lies outside this code.
- Logging (`console.log`, `console.error`) is left out because it has no effect on behaviour.
- `Promise.all` concurrency is modelled as a fixed order. The receipt delete comes first, then the lookup result is used.
- Failures of Firestore reads and of the receipt delete are not modelled. Queries always answer, and deletes always succeed, including deletes of missing documents.
- Handlers.OnCreateMessage: when the sender resolves to the document whose token the receiver branch just cleared, the model has the sender lookup return the document as it was before that write (the query is issued at line 88, before the write at lines 134-136). The backend may answer that query after the write, and then the sender's notification is addressed to the token "null" instead; the model does not cover that timing.
- Document-path syntax corner cases are left out. An empty uid, or a uid or phone number containing `/`, is treated like any other string. Such a uid names no top-level user document, so the write rejects; profiles are keyed by the phone number string.
- Message and receipt fields (`sender`, `receiver`, `message_id`, the timestamps) are assumed present: `Handlers.Message` and `Handlers.Receipt` hold plain strings. With an absent `sender` or `receiver`, the query `where('phone_number', '==', undefined)` throws before any effect (lines 87-88, 198, 260). Then `onCreateMessage` notifies nobody, even when the receiver is present, and `onCreateMessageReceipt` throws before the delete at lines 261-262. The model does not cover these runs.
- User and profile field values are strings or absent. Non-string values, type-sensitive query equality, and the transport's own validation of data values are out of scope.
- Fields of a user or profile document beyond the eight the code reads are not represented. The profile merge therefore overwrites the whole modelled profile.
- The handler's completion signal to the event source is not modelled beyond `Completed`/`Aborted`. Cross-event behaviour is also out of scope: redelivery, ordering between events, concurrent writes to the same token.

=== FILE: dispatch.dfy ===
/** One notification branch, as each handler runs it: resolve the recipient
    by phone number, send the payload to the recipient's device token, and
    reconcile the token from the delivery results. */
module Dispatch {
  import opened Optional
  import opened Users
  import opened Payloads
  import opened Reconciler

  /** What the push transport answers for one send: a rejection of the whole
      call, or one result per addressed token. */
  datatype Delivery = Rejected | Delivered(results: seq<DeliveryResult>)

  /** The push transport, as an oracle from token and payload to its answer. */
  type Transport = (string, Payload) -> Delivery

  /** An externally visible action, in the order the handler performs them. */
  datatype Effect =
    | Notify(token: string, payload: Payload)          // one call to the transport
    | TokenCleared(uid: string)                         // the reconciler's write
    | ReceiptDeleted(conversationId: string, messageId: string)

  /** Why a branch stopped early; each one rejects the handler's promise. */
  datatype Failure =
    | RecipientNotFound(phone: string)  // the query matched no document
    | TokenRefused                      // the token is absent or empty: the send throws before any call
    | DeliveryRejected                  // the transport rejected the call
    | TokenWriteRejected                // the token write targeted no document

  /** The store after a branch, what it did, and whether it stopped early. */
  datatype Step = Step(users: Collection, effects: seq<Effect>, failure: Option<Failure>)

  /** The send accepts a token only when it is a non-empty string. */
  predicate AcceptsToken(token: Option<string>) {
    token.Some? && token.value != ""
  }

  /** The token the branch addresses once the recipient resolved. */
  function TokenOf(d: UserDoc): string
    requires AcceptsToken(d.record.deviceInstanceId)
  {
    d.record.deviceInstanceId.value
  }

  /** The conditions under which a branch runs to its end: the recipient
      resolves, the send accepts its token, the transport answers, and a
      needed token write finds its document. */
  predicate Completes(users: Collection, snapshot: Collection, send: Transport, phone: string, payload: Payload) {
    match Resolve(snapshot, phone)
    case None => false
    case Some(d) =>
      && AcceptsToken(d.record.deviceInstanceId)
      && var answer := send(TokenOf(d), payload);
      && answer.Delivered?
      && (TokenRemoved(answer.results) ==> d.record.uid.Some? && HasDoc(users, d.record.uid.value))
  }

  /** `id` names the document a branch for `phone` may write: the one whose
      id is the resolved recipient's `uid` field. */
  predicate WriteTarget(snapshot: Collection, phone: string, id: string) {
    Resolve(snapshot, phone).Some? && Resolve(snapshot, phone).value.record.uid == Some(id)
  }

  /** `phone` resolves in `snapshot` to a document whose token the send
      accepts: a branch for `phone` calls the transport. */
  predicate HasUsableToken(snapshot: Collection, phone: string) {
    Resolve(snapshot, phone).Some? && AcceptsToken(Resolve(snapshot, phone).value.record.deviceInstanceId)
  }

  /** `e` is the transport call that sends `payload` to the device token of
      the document `phone` resolves to in `snapshot`. */
  predicate AddressedTo(snapshot: Collection, phone: string, payload: Payload, e: Effect) {
    && HasUsableToken(snapshot, phone)
    && e == Notify(TokenOf(Resolve(snapshot, phone).value), payload)
  }

  /** The send of `payload` to the recipient `phone` resolves to in
      `snapshot` was answered, and some result carries a permanent error
      code: the token is dead. */
  predicate ReportedDead(snapshot: Collection, send: Transport, phone: string, payload: Payload) {
    && HasUsableToken(snapshot, phone)
    && send(TokenOf(Resolve(snapshot, phone).value), payload).Delivered?
    && TokenRemoved(send(TokenOf(Resolve(snapshot, phone).value), payload).results)
  }

  /** A branch: the recipient is resolved against `snapshot` (the query's
      view), the token write goes to `users` (the store as the branch finds
      it). */
  function NotifyRecipient(users: Collection, snapshot: Collection, send: Transport, phone: string, payload: Payload): (s: Step)
    ensures OnlyTokensCleared(users, s.users)
    ensures forall j :: 0 <= j < |users| && s.users[j] != users[j] ==>
      WriteTarget(snapshot, phone, users[j].id) && ReportedDead(snapshot, send, phone, payload)
    ensures Resolve(snapshot, phone).None? ==> s == Step(users, [], Some(RecipientNotFound(phone)))
    ensures HasUsableToken(snapshot, phone) ==> s.effects != []
    ensures s.failure == Some(TokenRefused) <==>
      Resolve(snapshot, phone).Some? && !AcceptsToken(Resolve(snapshot, phone).value.record.deviceInstanceId)
    ensures s.failure == Some(DeliveryRejected) <==>
      && Resolve(snapshot, phone).Some?
      && AcceptsToken(Resolve(snapshot, phone).value.record.deviceInstanceId)
      && send(TokenOf(Resolve(snapshot, phone).value), payload).Rejected?
    ensures s.failure == Some(TokenWriteRejected) <==>
      && Resolve(snapshot, phone).Some?
      && AcceptsToken(Resolve(snapshot, phone).value.record.deviceInstanceId)
      && var d := Resolve(snapshot, phone).value;
      && send(TokenOf(d), payload).Delivered?
      && TokenRemoved(send(TokenOf(d), payload).results)
      && !(d.record.uid.Some? && HasDoc(users, d.record.uid.value))
    ensures s.effects != [] ==>
      && Resolve(snapshot, phone).Some?
      && AcceptsToken(Resolve(snapshot, phone).value.record.deviceInstanceId)
      && s.effects[0] == Notify(TokenOf(Resolve(snapshot, phone).value), payload)
    ensures s.failure.None? <==> Completes(users, snapshot, send, phone, payload)
    ensures s.failure.None? ==> s.effects != []
    ensures s.failure.None? ==> (|s.effects| == 2 <==> ReportedDead(snapshot, send, phone, payload))
    ensures |s.effects| <= 2
    ensures forall i :: 0 <= i < |s.effects| && s.effects[i].Notify? ==> i == 0 && AddressedTo(snapshot, phone, payload, s.effects[i])
    ensures |s.effects| < 2 ==> s.users == users
    ensures |s.effects| == 2 ==>
      var d := Resolve(snapshot, phone).value;
      && s.failure.None?
      && send(TokenOf(d), payload).Delivered?
      && TokenRemoved(send(TokenOf(d), payload).results)
      && d.record.uid.Some?
      && s.effects[1] == TokenCleared(d.record.uid.value)
      && s.users == ClearToken(users, d.record.uid.value)
  {
    match Resolve(snapshot, phone)
    case None => Step(users, [], Some(RecipientNotFound(phone)))
    case Some(d) =>
      var token := d.record.deviceInstanceId;
      if !AcceptsToken(token) then Step(users, [], Some(TokenRefused))
      else
        var sent := [Notify(token.value, payload)];
        match send(token.value, payload)
        case Rejected => Step(users, sent, Some(DeliveryRejected))
        case Delivered(results) =>
          match Reconcile(users, d.record.uid, results)
          case Untouched => Step(users, sent, None)
          case Repaired(cleared) => Step(cleared, sent + [TokenCleared(d.record.uid.value)], None)
          case WriteRejected => Step(users, sent, Some(TokenWriteRejected))
  }

  /** Resolving against the query's early snapshot or against the store after
      another branch cleared document `id` selects the same recipient, unless
      the recipient is that very document: then the two views differ in its
      token. This lemma does not cover that case; `Chain` uses the snapshot. */
  lemma SnapshotAgreesAfterClear(users: Collection, id: string, send: Transport, phone: string, payload: Payload)
    requires Resolve(users, phone).Some? ==> Resolve(users, phone).value.id != id
    ensures NotifyRecipient(ClearToken(users, id), users, send, phone, payload)
         == NotifyRecipient(ClearToken(users, id), ClearToken(users, id), send, phone, payload)
  {
    ResolveAfterClear(users, id, phone);
  }

  /** Two branches in sequence: the second runs only when the first
      completed. Both recipients are resolved against `users` as it was before
      either branch ran, since both queries are issued up front; the second
      branch's token write goes to the store the first branch left. */
  function Chain(users: Collection, send: Transport, phone1: string, payload1: Payload,
                 phone2: string, payload2: Payload): (s: Step)
    ensures OnlyTokensCleared(users, s.users)
    ensures forall j :: 0 <= j < |users| && s.users[j] != users[j] ==>
      || (WriteTarget(users, phone1, users[j].id) && ReportedDead(users, send, phone1, payload1))
      || (&& WriteTarget(users, phone2, users[j].id)
          && Completes(users, users, send, phone1, payload1)
          && ReportedDead(users, send, phone2, payload2))
    ensures Resolve(users, phone1).None? ==> s == Step(users, [], Some(RecipientNotFound(phone1)))
    ensures !Completes(users, users, send, phone1, payload1) ==> s == NotifyRecipient(users, users, send, phone1, payload1)
    ensures Completes(users, users, send, phone1, payload1) && Resolve(users, phone2).None? ==>
      s.failure == Some(RecipientNotFound(phone2))
    ensures s.failure.None? <==>
      && Completes(users, users, send, phone1, payload1)
      && Completes(NotifyRecipient(users, users, send, phone1, payload1).users, users, send, phone2, payload2)
    ensures forall i :: 0 <= i < |s.effects| && s.effects[i].Notify? ==>
      || (i == 0 && AddressedTo(users, phone1, payload1, s.effects[i]))
      || (i > 0 && AddressedTo(users, phone2, payload2, s.effects[i]))
    ensures s.failure.None? ==> exists i :: 0 < i < |s.effects| && AddressedTo(users, phone2, payload2, s.effects[i])
    ensures Completes(users, users, send, phone1, payload1) && HasUsableToken(users, phone2) ==>
      exists i :: 0 < i < |s.effects| && AddressedTo(users, phone2, payload2, s.effects[i])
    ensures |s.effects| <= 4
  {
    var first := NotifyRecipient(users, users, send, phone1, payload1);
    if first.failure.Some? then first
    else
      var second := NotifyRecipient(first.users, users, send, phone2, payload2);
      OnlyTokensClearedTransitive(users, first.users, second.users);
      ChainedEffects(first.effects, second.effects);
      ChainedWrites(users, send, phone1, payload1, phone2, payload2, first, second);
      assert second.effects != [] ==> (first.effects + second.effects)[|first.effects|] == second.effects[0];
      Step(second.users, first.effects + second.effects, second.failure)
  }

  /** A dead token is cleared in a chain: when the first branch completes,
      its trace opens the chain's trace, and its token write, made exactly
      when its send reported a permanent error, sits at position 1 and
      survives the second branch; when the whole chain completes, the
      second branch's token write, made exactly when its own send reported
      a permanent error, ends the trace. Either cleared token is "null" in
      the final store. */
  lemma ChainClearsDeadTokens(users: Collection, send: Transport, phone1: string, payload1: Payload,
                              phone2: string, payload2: Payload)
    ensures Completes(users, users, send, phone1, payload1) ==>
      var first := NotifyRecipient(users, users, send, phone1, payload1);
      var s := Chain(users, send, phone1, payload1, phone2, payload2);
      |first.effects| <= |s.effects| && s.effects[..|first.effects|] == first.effects
    ensures Completes(users, users, send, phone1, payload1) ==>
      var s := Chain(users, send, phone1, payload1, phone2, payload2);
      (ReportedDead(users, send, phone1, payload1) <==> |s.effects| >= 2 && s.effects[1].TokenCleared?)
    ensures Completes(users, users, send, phone1, payload1) && ReportedDead(users, send, phone1, payload1) ==>
      var s := Chain(users, send, phone1, payload1, phone2, payload2);
      var uid := Resolve(users, phone1).value.record.uid;
      && uid.Some?
      && |s.effects| >= 2
      && s.effects[1] == TokenCleared(uid.value)
      && TokenNullFor(s.users, uid.value)
    ensures Chain(users, send, phone1, payload1, phone2, payload2).failure.None? ==>
      var s := Chain(users, send, phone1, payload1, phone2, payload2);
      && |s.effects| >= 2
      && (ReportedDead(users, send, phone2, payload2) <==> s.effects[|s.effects| - 1].TokenCleared?)
    ensures Chain(users, send, phone1, payload1, phone2, payload2).failure.None? && ReportedDead(users, send, phone2, payload2) ==>
      var s := Chain(users, send, phone1, payload1, phone2, payload2);
      var uid := Resolve(users, phone2).value.record.uid;
      && uid.Some?
      && |s.effects| >= 2
      && s.effects[|s.effects| - 1] == TokenCleared(uid.value)
      && TokenNullFor(s.users, uid.value)
  {
    var first := NotifyRecipient(users, users, send, phone1, payload1);
    if first.failure.None? {
      var second := NotifyRecipient(first.users, users, send, phone2, payload2);
      ChainedTokenWrites(users, send, phone1, payload1, phone2, payload2, first, second,
                         Chain(users, send, phone1, payload1, phone2, payload2));
    }
  }

  /** The proof of `ChainClearsDeadTokens` once the first branch completed. */
  lemma ChainedTokenWrites(users: Collection, send: Transport, phone1: string, payload1: Payload,
                           phone2: string, payload2: Payload, first: Step, second: Step, s: Step)
    requires first == NotifyRecipient(users, users, send, phone1, payload1) && first.failure.None?
    requires second == NotifyRecipient(first.users, users, send, phone2, payload2)
    requires s == Step(second.users, first.effects + second.effects, second.failure)
    ensures |first.effects| <= |s.effects| && s.effects[..|first.effects|] == first.effects
    ensures ReportedDead(users, send, phone1, payload1) <==> |s.effects| >= 2 && s.effects[1].TokenCleared?
    ensures ReportedDead(users, send, phone1, payload1) ==>
      var uid := Resolve(users, phone1).value.record.uid;
      && uid.Some?
      && |s.effects| >= 2
      && s.effects[1] == TokenCleared(uid.value)
      && TokenNullFor(s.users, uid.value)
    ensures s.failure.None? ==>
      && |s.effects| >= 2
      && (ReportedDead(users, send, phone2, payload2) <==> s.effects[|s.effects| - 1].TokenCleared?)
    ensures s.failure.None? && ReportedDead(users, send, phone2, payload2) ==>
      var uid := Resolve(users, phone2).value.record.uid;
      && uid.Some?
      && |s.effects| >= 2
      && s.effects[|s.effects| - 1] == TokenCleared(uid.value)
      && TokenNullFor(s.users, uid.value)
  {
    var effects := first.effects + second.effects;
    assert effects[..|first.effects|] == first.effects;
    assert effects[0] == first.effects[0];
    if ReportedDead(users, send, phone1, payload1) {
      var uid := Resolve(users, phone1).value.record.uid.value;
      assert |first.effects| == 2;
      assert effects[1] == first.effects[1];
      ClearedStaysCleared(users, uid, second.users);
    } else {
      assert |first.effects| == 1;
      if |effects| >= 2 {
        assert effects[1] == second.effects[0];
      }
    }
    if second.failure.None? {
      assert effects[|effects| - 1] == second.effects[|second.effects| - 1];
      if ReportedDead(users, send, phone2, payload2) {
        assert |second.effects| == 2;
      } else {
        assert |second.effects| == 1;
      }
    }
  }

  /** Where the effects of the second branch land in the concatenated trace. */
  lemma ChainedEffects(first: seq<Effect>, second: seq<Effect>)
    ensures forall i :: |first| <= i < |first| + |second| ==> (first + second)[i] == second[i - |first|]
  {
  }

  /** A document the two branches changed was changed by one of them, after
      that branch's send reported a permanent error. */
  lemma ChainedWrites(users: Collection, send: Transport, phone1: string, payload1: Payload,
                      phone2: string, payload2: Payload, first: Step, second: Step)
    requires first == NotifyRecipient(users, users, send, phone1, payload1) && first.failure.None?
    requires second == NotifyRecipient(first.users, users, send, phone2, payload2)
    ensures forall j :: 0 <= j < |users| && second.users[j] != users[j] ==>
      || (WriteTarget(users, phone1, users[j].id) && ReportedDead(users, send, phone1, payload1))
      || (&& WriteTarget(users, phone2, users[j].id)
          && Completes(users, users, send, phone1, payload1)
          && ReportedDead(users, send, phone2, payload2))
  {
    forall j | 0 <= j < |users| && second.users[j] != users[j]
      ensures || (WriteTarget(users, phone1, users[j].id) && ReportedDead(users, send, phone1, payload1))
              || (&& WriteTarget(users, phone2, users[j].id)
                  && Completes(users, users, send, phone1, payload1)
                  && ReportedDead(users, send, phone2, payload2))
    {
      if first.users[j] == users[j] {
        assert second.users[j] != first.users[j];
      }
    }
  }

  /** In a chain, a notification carrying the second payload goes out only
      after the first branch ran to its end: the first recipient was notified
      at position 0 and, when its delivery reported a dead token, its token
      was cleared at position 1, before the second notification. */
  lemma SecondNotifiedOnlyAfterFirstBranch(users: Collection, send: Transport, phone1: string, payload1: Payload,
                                           phone2: string, payload2: Payload, k: int)
    requires payload1 != payload2
    requires 0 <= k < |Chain(users, send, phone1, payload1, phone2, payload2).effects|
    requires Chain(users, send, phone1, payload1, phone2, payload2).effects[k].Notify?
    requires Chain(users, send, phone1, payload1, phone2, payload2).effects[k].payload == payload2
    ensures Completes(users, users, send, phone1, payload1)
    ensures Resolve(users, phone1).Some? && AcceptsToken(Resolve(users, phone1).value.record.deviceInstanceId)
    ensures
      var d := Resolve(users, phone1).value;
      var effects := Chain(users, send, phone1, payload1, phone2, payload2).effects;
      && effects[0] == Notify(TokenOf(d), payload1)
      && (TokenRemoved(send(TokenOf(d), payload1).results) ==>
            k == 2 && d.record.uid.Some? && effects[1] == TokenCleared(d.record.uid.value))
      && (!TokenRemoved(send(TokenOf(d), payload1).results) ==> k == 1)
  {
    var first := NotifyRecipient(users, users, send, phone1, payload1);
    var effects := Chain(users, send, phone1, payload1, phone2, payload2).effects;
    assert k > 0;
    assert first.failure.None?;
    var second := NotifyRecipient(first.users, users, send, phone2, payload2);
    assert effects == first.effects + second.effects;
    assert effects[k] == second.effects[k - |first.effects|];
  }
}

=== FILE: handlers.dfy ===
/** The three message event handlers as pure functions from the database, the
    transport and the event to the new database, the effects performed in
    order, and whether the handler's promise resolved or rejected. */
module Handlers {
  import opened Optional
  import opened Users
  import opened Payloads
  import opened Reconciler
  import opened Dispatch

  /** `chat_conversations/{conversationId}/messages_receipts/{messageId}`. */
  datatype ReceiptPath = ReceiptPath(conversationId: string, messageId: string)

  /** The parts of the database the handlers read or write. */
  datatype Db = Db(users: Collection, receipts: set<ReceiptPath>)

  /** A message document; `timeStamp` is its already-rendered timestamp. */
  datatype Message = Message(sender: string, receiver: string, messageId: string, timeStamp: string)

  /** A receipt document; `timestamp` is its already-rendered timestamp. */
  datatype Receipt = Receipt(sender: string, messageId: string, timestamp: string)

  datatype Status = Completed | Aborted(failure: Failure)

  datatype Run = Run(db: Db, effects: seq<Effect>, status: Status)

  function StatusOf(failure: Option<Failure>): Status {
    match failure
    case None => Completed
    case Some(f) => Aborted(f)
  }

  function ReceivedPayload(conversationId: string, m: Message): (p: Payload)
    ensures p.Keys == {"action", "sender", "conversation_id", "message_id", "message_timestamp"}
    ensures p["action"] == "NEW_MESSAGE_RECEIVED" && p["sender"] == m.sender
    ensures p["conversation_id"] == conversationId && p["message_id"] == m.messageId
    ensures p["message_timestamp"] == m.timeStamp
  {
    Encode(MessageReceived(m.sender, conversationId, m.messageId, m.timeStamp))
  }

  function SentPayload(conversationId: string, m: Message): (p: Payload)
    ensures p.Keys == {"action", "receiver", "conversation_id", "message_id"}
    ensures p["action"] == "NEW_MESSAGE_SENT" && p["receiver"] == m.receiver
    ensures p["conversation_id"] == conversationId && p["message_id"] == m.messageId
  {
    Encode(MessageSent(m.receiver, conversationId, m.messageId))
  }

  function DeliveredPayload(conversationId: string, m: Message, deliveryTimestamp: string): (p: Payload)
    ensures p.Keys == {"action", "receiver", "conversation_id", "message_id", "delivery_timestamp"}
    ensures p["action"] == "NEW_MESSAGE_DELIVERED" && p["receiver"] == m.receiver
    ensures p["conversation_id"] == conversationId && p["message_id"] == m.messageId
    ensures p["delivery_timestamp"] == deliveryTimestamp
  {
    Encode(MessageDelivered(m.receiver, conversationId, m.messageId, deliveryTimestamp))
  }

  function ReadPayload(conversationId: string, receipt: Receipt): (p: Payload)
    ensures p.Keys == {"action", "conversation_id", "message_id", "read_timestamp"}
    ensures p["action"] == "NEW_MESSAGE_READ"
    ensures p["conversation_id"] == conversationId && p["message_id"] == receipt.messageId
    ensures p["read_timestamp"] == receipt.timestamp
  {
    Encode(MessageRead(conversationId, receipt.messageId, receipt.timestamp))
  }

  /** True when the sender does not resolve to the document the receiver
      branch would write (the one whose id is the receiver record's uid). */
  predicate DistinctRecipients(users: Collection, m: Message) {
    match (Resolve(users, m.receiver), Resolve(users, m.sender))
    case (Some(r), Some(s)) => r.record.uid != Some(s.id)
    case _ => true
  }

  /** A message was created: notify the receiver, reconcile the receiver's
      token, then notify the sender and reconcile the sender's token. Both
      queries are issued before anything is written, so both recipients are
      resolved against the store as the handler found it. */
  function OnCreateMessage(db: Db, send: Transport, conversationId: string, message: Message): (r: Run)
    ensures r.db.receipts == db.receipts
    ensures OnlyTokensCleared(db.users, r.db.users)
    ensures Resolve(db.users, message.receiver).None? ==>
      r == Run(db, [], Aborted(RecipientNotFound(message.receiver)))
    ensures forall j :: 0 <= j < |db.users| && r.db.users[j] != db.users[j] ==>
      || (&& WriteTarget(db.users, message.receiver, db.users[j].id)
          && ReportedDead(db.users, send, message.receiver, ReceivedPayload(conversationId, message)))
      || (&& WriteTarget(db.users, message.sender, db.users[j].id)
          && Completes(db.users, db.users, send, message.receiver, ReceivedPayload(conversationId, message))
          && ReportedDead(db.users, send, message.sender, SentPayload(conversationId, message)))
    ensures r.status.Completed? <==>
      && Completes(db.users, db.users, send, message.receiver, ReceivedPayload(conversationId, message))
      && Completes(NotifyRecipient(db.users, db.users, send, message.receiver, ReceivedPayload(conversationId, message)).users,
                   db.users, send, message.sender, SentPayload(conversationId, message))
    ensures (&& Completes(db.users, db.users, send, message.receiver, ReceivedPayload(conversationId, message))
             && Resolve(db.users, message.sender).None?) ==>
      r.status == Aborted(RecipientNotFound(message.sender))
    ensures forall i :: 0 <= i < |r.effects| && r.effects[i].Notify? ==>
      || (i == 0 && AddressedTo(db.users, message.receiver, ReceivedPayload(conversationId, message), r.effects[i]))
      || (i > 0 && AddressedTo(db.users, message.sender, SentPayload(conversationId, message), r.effects[i]))
    ensures r.status.Completed? ==>
      exists i :: 0 < i < |r.effects| && AddressedTo(db.users, message.sender, SentPayload(conversationId, message), r.effects[i])
    ensures (&& Completes(db.users, db.users, send, message.receiver, ReceivedPayload(conversationId, message))
             && HasUsableToken(db.users, message.sender)) ==>
      exists i :: 0 < i < |r.effects| && AddressedTo(db.users, message.sender, SentPayload(conversationId, message), r.effects[i])
    ensures |r.effects| <= 4
  {
    var s := Chain(db.users, send, message.receiver, ReceivedPayload(conversationId, message),
                   message.sender, SentPayload(conversationId, message));
    Run(db.(users := s.users), s.effects, StatusOf(s.failure))
  }

  /** A message was deleted (the receiver has it): tell the sender it was
      delivered, stamped with the clock reading taken while processing. */
  function OnDeleteMessage(db: Db, send: Transport, conversationId: string, message: Message, deliveryTimestamp: string): (r: Run)
    ensures r.db.receipts == db.receipts
    ensures OnlyTokensCleared(db.users, r.db.users)
    ensures Resolve(db.users, message.sender).None? ==>
      r == Run(db, [], Aborted(RecipientNotFound(message.sender)))
    ensures r.status.Completed? <==>
      Completes(db.users, db.users, send, message.sender, DeliveredPayload(conversationId, message, deliveryTimestamp))
    ensures |r.effects| <= 2
    ensures r.status.Completed? ==> |r.effects| >= 1 && r.effects[0].Notify?
    ensures r.status.Completed? ==>
      (|r.effects| == 2 <==> ReportedDead(db.users, send, message.sender, DeliveredPayload(conversationId, message, deliveryTimestamp)))
    ensures HasUsableToken(db.users, message.sender) ==> |r.effects| >= 1 && r.effects[0].Notify?
    ensures |r.effects| < 2 ==> r.db.users == db.users
    ensures |r.effects| == 2 ==>
      && r.status.Completed?
      && ReportedDead(db.users, send, message.sender, DeliveredPayload(conversationId, message, deliveryTimestamp))
      && var uid := Resolve(db.users, message.sender).value.record.uid;
      && uid.Some?
      && r.effects[1] == TokenCleared(uid.value)
      && r.db.users == ClearToken(db.users, uid.value)
    ensures forall i :: 0 <= i < |r.effects| && r.effects[i].Notify? ==>
      i == 0 && AddressedTo(db.users, message.sender, DeliveredPayload(conversationId, message, deliveryTimestamp), r.effects[i])
  {
    var toSender := NotifyRecipient(db.users, db.users, send, message.sender,
                                    DeliveredPayload(conversationId, message, deliveryTimestamp));
    Run(db.(users := toSender.users), toSender.effects, StatusOf(toSender.failure))
  }

  /** A receipt was created under `messageId` of conversation `conversationId`:
      delete that receipt document, then tell the sender the message was read.
      The delete is issued before the lookup, so it happens even when the
      sender cannot be resolved. */
  function OnCreateMessageReceipt(db: Db, send: Transport, conversationId: string, messageId: string, receipt: Receipt): (r: Run)
    ensures r.db.receipts == db.receipts - {ReceiptPath(conversationId, messageId)}
    ensures OnlyTokensCleared(db.users, r.db.users)
    ensures 1 <= |r.effects| <= 3 && r.effects[0] == ReceiptDeleted(conversationId, messageId)
    ensures Resolve(db.users, receipt.sender).None? ==>
      && r.db.users == db.users
      && r.effects == [ReceiptDeleted(conversationId, messageId)]
      && r.status == Aborted(RecipientNotFound(receipt.sender))
    ensures r.status.Completed? <==>
      Completes(db.users, db.users, send, receipt.sender, ReadPayload(conversationId, receipt))
    ensures r.status.Completed? ==> |r.effects| >= 2 && r.effects[1].Notify?
    ensures r.status.Completed? ==> (|r.effects| == 3 <==> ReportedDead(db.users, send, receipt.sender, ReadPayload(conversationId, receipt)))
    ensures HasUsableToken(db.users, receipt.sender) ==> |r.effects| >= 2 && r.effects[1].Notify?
    ensures |r.effects| < 3 ==> r.db.users == db.users
    ensures |r.effects| == 3 ==>
      && r.status.Completed?
      && ReportedDead(db.users, send, receipt.sender, ReadPayload(conversationId, receipt))
      && var uid := Resolve(db.users, receipt.sender).value.record.uid;
      && uid.Some?
      && r.effects[2] == TokenCleared(uid.value)
      && r.db.users == ClearToken(db.users, uid.value)
    ensures forall i :: 0 <= i < |r.effects| && r.effects[i].Notify? ==>
      i == 1 && AddressedTo(db.users, receipt.sender, ReadPayload(conversationId, receipt), r.effects[i])
  {
    var receipts := db.receipts - {ReceiptPath(conversationId, messageId)};
    var toSender := NotifyRecipient(db.users, db.users, send, receipt.sender, ReadPayload(conversationId, receipt));
    Run(Db(toSender.users, receipts), [ReceiptDeleted(conversationId, messageId)] + toSender.effects,
        StatusOf(toSender.failure))
  }

  /** The four actions differ, so a payload of one kind is never one of another. */
  lemma PayloadsOfDifferentKindsDiffer(conversationId: string, m: Message)
    ensures ReceivedPayload(conversationId, m) != SentPayload(conversationId, m)
  {
    assert ReceivedPayload(conversationId, m)["action"] != SentPayload(conversationId, m)["action"];
  }

  /** The sender hears about a new message only after the receiver branch
      ran to its end: the receiver was notified first and, when its delivery
      reported a dead token, the receiver's token was cleared before the
      sender's notification went out. */
  lemma SenderNotifiedOnlyAfterReceiverBranch(db: Db, send: Transport, conversationId: string, message: Message, k: int)
    requires 0 <= k < |OnCreateMessage(db, send, conversationId, message).effects|
    requires OnCreateMessage(db, send, conversationId, message).effects[k].Notify?
    requires OnCreateMessage(db, send, conversationId, message).effects[k].payload == SentPayload(conversationId, message)
    ensures Completes(db.users, db.users, send, message.receiver, ReceivedPayload(conversationId, message))
    ensures Resolve(db.users, message.receiver).Some?
    ensures AcceptsToken(Resolve(db.users, message.receiver).value.record.deviceInstanceId)
    ensures
      var d := Resolve(db.users, message.receiver).value;
      var received := ReceivedPayload(conversationId, message);
      var effects := OnCreateMessage(db, send, conversationId, message).effects;
      && effects[0] == Notify(TokenOf(d), received)
      && (TokenRemoved(send(TokenOf(d), received).results) ==>
            k == 2 && d.record.uid.Some? && effects[1] == TokenCleared(d.record.uid.value))
      && (!TokenRemoved(send(TokenOf(d), received).results) ==> k == 1)
  {
    PayloadsOfDifferentKindsDiffer(conversationId, message);
    SecondNotifiedOnlyAfterFirstBranch(db.users, send, message.receiver, ReceivedPayload(conversationId, message),
                                       message.sender, SentPayload(conversationId, message), k);
  }

  /** When the sender does not resolve to the document the receiver branch may
      have cleared, it makes no difference that the sender was looked up
      before that write: resolving against the store after the receiver branch
      gives the same sender branch. */
  lemma SenderLookupUnaffectedByReceiverRepair(db: Db, send: Transport, conversationId: string, message: Message)
    requires DistinctRecipients(db.users, message)
    ensures
      var after := NotifyRecipient(db.users, db.users, send, message.receiver, ReceivedPayload(conversationId, message)).users;
      NotifyRecipient(after, db.users, send, message.sender, SentPayload(conversationId, message))
        == NotifyRecipient(after, after, send, message.sender, SentPayload(conversationId, message))
  {
    var toReceiver := NotifyRecipient(db.users, db.users, send, message.receiver, ReceivedPayload(conversationId, message));
    if |toReceiver.effects| == 2 {
      var d := Resolve(db.users, message.receiver).value;
      SnapshotAgreesAfterClear(db.users, d.record.uid.value, send, message.sender, SentPayload(conversationId, message));
    }
  }

  /** Both participants resolve, both sends succeed with no permanent error:
      two notifications, receiver first, and no write. */
  lemma MessageCreatedBothDelivered(db: Db, send: Transport, conversationId: string, message: Message,
                                    receiver: UserDoc, sender: UserDoc)
    requires Resolve(db.users, message.receiver) == Some(receiver)
    requires Resolve(db.users, message.sender) == Some(sender)
    requires AcceptsToken(receiver.record.deviceInstanceId) && AcceptsToken(sender.record.deviceInstanceId)
    requires send(TokenOf(receiver), ReceivedPayload(conversationId, message)).Delivered?
    requires !TokenRemoved(send(TokenOf(receiver), ReceivedPayload(conversationId, message)).results)
    requires send(TokenOf(sender), SentPayload(conversationId, message)).Delivered?
    requires !TokenRemoved(send(TokenOf(sender), SentPayload(conversationId, message)).results)
    ensures OnCreateMessage(db, send, conversationId, message)
         == Run(db, [Notify(TokenOf(receiver), ReceivedPayload(conversationId, message)),
                     Notify(TokenOf(sender), SentPayload(conversationId, message))], Completed)
  {
  }

  /** The receiver's token is reported dead: the receiver's document gets the
      token "null" before anything else happens, and the sender branch still
      runs and notifies the sender. This holds as well when both participants
      resolve to the same document: the sender's notification then carries
      the token the lookup returned before the write, the one just cleared. */
  lemma ReceiverTokenEvictedSenderStillNotified(db: Db, send: Transport, conversationId: string, message: Message,
                                                receiver: UserDoc, sender: UserDoc)
    requires Resolve(db.users, message.receiver) == Some(receiver)
    requires AcceptsToken(receiver.record.deviceInstanceId)
    requires send(TokenOf(receiver), ReceivedPayload(conversationId, message)).Delivered?
    requires TokenRemoved(send(TokenOf(receiver), ReceivedPayload(conversationId, message)).results)
    requires receiver.record.uid.Some? && HasDoc(db.users, receiver.record.uid.value)
    requires Resolve(db.users, message.sender) == Some(sender)
    requires AcceptsToken(sender.record.deviceInstanceId)
    ensures
      var r := OnCreateMessage(db, send, conversationId, message);
      && |r.effects| >= 3
      && r.effects[0] == Notify(TokenOf(receiver), ReceivedPayload(conversationId, message))
      && r.effects[1] == TokenCleared(receiver.record.uid.value)
      && r.effects[2] == Notify(TokenOf(sender), SentPayload(conversationId, message))
      && TokenNullFor(r.db.users, receiver.record.uid.value)
  {
    var toReceiver := NotifyRecipient(db.users, db.users, send, message.receiver, ReceivedPayload(conversationId, message));
    var toSender := NotifyRecipient(toReceiver.users, db.users, send, message.sender, SentPayload(conversationId, message));
    var r := OnCreateMessage(db, send, conversationId, message);
    assert |toReceiver.effects| == 2 && toReceiver.failure.None?;
    MessageCreatedClearsDeadTokens(db, send, conversationId, message);
    assert r.effects == toReceiver.effects + toSender.effects;
    assert r.effects[2] == toSender.effects[0];
  }

  /** A dead token is cleared when a message is created. Once the receiver
      branch completes, the receiver's token is cleared at position 1 exactly
      when the receiver's send reported a permanent error, whatever happens
      to the sender afterwards. When the handler completes, the sender's token
      is cleared as the last effect exactly when the sender's send reported a
      permanent error. Either cleared token is "null" in the final store. */
  lemma MessageCreatedClearsDeadTokens(db: Db, send: Transport, conversationId: string, message: Message)
    ensures Completes(db.users, db.users, send, message.receiver, ReceivedPayload(conversationId, message)) ==>
      var r := OnCreateMessage(db, send, conversationId, message);
      (ReportedDead(db.users, send, message.receiver, ReceivedPayload(conversationId, message)) <==>
         |r.effects| >= 2 && r.effects[1].TokenCleared?)
    ensures (&& Completes(db.users, db.users, send, message.receiver, ReceivedPayload(conversationId, message))
             && ReportedDead(db.users, send, message.receiver, ReceivedPayload(conversationId, message))) ==>
      var r := OnCreateMessage(db, send, conversationId, message);
      var uid := Resolve(db.users, message.receiver).value.record.uid;
      && uid.Some?
      && |r.effects| >= 2
      && r.effects[1] == TokenCleared(uid.value)
      && TokenNullFor(r.db.users, uid.value)
    ensures OnCreateMessage(db, send, conversationId, message).status.Completed? ==>
      var r := OnCreateMessage(db, send, conversationId, message);
      && |r.effects| >= 2
      && (ReportedDead(db.users, send, message.sender, SentPayload(conversationId, message)) <==>
            r.effects[|r.effects| - 1].TokenCleared?)
    ensures (&& OnCreateMessage(db, send, conversationId, message).status.Completed?
             && ReportedDead(db.users, send, message.sender, SentPayload(conversationId, message))) ==>
      var r := OnCreateMessage(db, send, conversationId, message);
      var uid := Resolve(db.users, message.sender).value.record.uid;
      && uid.Some?
      && |r.effects| >= 2
      && r.effects[|r.effects| - 1] == TokenCleared(uid.value)
      && TokenNullFor(r.db.users, uid.value)
  {
    ChainClearsDeadTokens(db.users, send, message.receiver, ReceivedPayload(conversationId, message),
                          message.sender, SentPayload(conversationId, message));
  }

  /** A deleted message whose delivered notification reports the sender's
      token dead: one delivered notification goes to the sender, then the
      sender's document gets the token "null". */
  lemma DeletedMessageEvictsSenderToken(db: Db, send: Transport, conversationId: string, message: Message,
                                        deliveryTimestamp: string, sender: UserDoc)
    requires Resolve(db.users, message.sender) == Some(sender)
    requires AcceptsToken(sender.record.deviceInstanceId)
    requires send(TokenOf(sender), DeliveredPayload(conversationId, message, deliveryTimestamp)).Delivered?
    requires TokenRemoved(send(TokenOf(sender), DeliveredPayload(conversationId, message, deliveryTimestamp)).results)
    requires sender.record.uid.Some? && HasDoc(db.users, sender.record.uid.value)
    ensures OnDeleteMessage(db, send, conversationId, message, deliveryTimestamp)
         == Run(db.(users := ClearToken(db.users, sender.record.uid.value)),
                [Notify(TokenOf(sender), DeliveredPayload(conversationId, message, deliveryTimestamp)),
                 TokenCleared(sender.record.uid.value)],
                Completed)
  {
  }

  /** A read receipt whose send reports the sender's token dead: the receipt
      is deleted, one read notification goes to the sender, and the sender's
      document gets the token "null". */
  lemma ReadReceiptEvictsSenderToken(db: Db, send: Transport, conversationId: string, messageId: string,
                                     receipt: Receipt, sender: UserDoc)
    requires Resolve(db.users, receipt.sender) == Some(sender)
    requires AcceptsToken(sender.record.deviceInstanceId)
    requires send(TokenOf(sender), ReadPayload(conversationId, receipt)).Delivered?
    requires TokenRemoved(send(TokenOf(sender), ReadPayload(conversationId, receipt)).results)
    requires sender.record.uid.Some? && HasDoc(db.users, sender.record.uid.value)
    ensures OnCreateMessageReceipt(db, send, conversationId, messageId, receipt)
         == Run(Db(ClearToken(db.users, sender.record.uid.value), db.receipts - {ReceiptPath(conversationId, messageId)}),
                [ReceiptDeleted(conversationId, messageId),
                 Notify(TokenOf(sender), ReadPayload(conversationId, receipt)),
                 TokenCleared(sender.record.uid.value)],
                Completed)
  {
  }
}

=== FILE: option.dfy ===
/** A value that may be absent: a missing document field, a query with no
    match, a result without an error. */
module Optional {

  datatype Option<+T> = None | Some(value: T)

}

=== FILE: payloads.dfy ===
/** The four notification data payloads, and the reading side that recovers
    the event from a payload. A payload is the flat string map sent as the
    `data` part of the push message. */
module Payloads {
  import opened Optional

  type Payload = map<string, string>

  const NewMessageReceived: string := "NEW_MESSAGE_RECEIVED"
  const NewMessageSent: string := "NEW_MESSAGE_SENT"
  const NewMessageDelivered: string := "NEW_MESSAGE_DELIVERED"
  const NewMessageRead: string := "NEW_MESSAGE_READ"

  /** One notification, with the event fields it carries. Timestamps are the
      already-rendered strings the handlers put in their template literals. */
  datatype Notification =
    | MessageReceived(sender: string, conversationId: string, messageId: string, messageTimestamp: string)
    | MessageSent(receiver: string, conversationId: string, messageId: string)
    | MessageDelivered(receiver: string, conversationId: string, messageId: string, deliveryTimestamp: string)
    | MessageRead(conversationId: string, messageId: string, readTimestamp: string)

  function Action(n: Notification): string {
    match n
    case MessageReceived(_, _, _, _) => NewMessageReceived
    case MessageSent(_, _, _) => NewMessageSent
    case MessageDelivered(_, _, _, _) => NewMessageDelivered
    case MessageRead(_, _, _) => NewMessageRead
  }

  /** The documented field set of each action; empty for an unknown action. */
  function FieldNames(action: string): set<string> {
    if action == NewMessageReceived then
      {"action", "sender", "conversation_id", "message_id", "message_timestamp"}
    else if action == NewMessageSent then
      {"action", "receiver", "conversation_id", "message_id"}
    else if action == NewMessageDelivered then
      {"action", "receiver", "conversation_id", "message_id", "delivery_timestamp"}
    else if action == NewMessageRead then
      {"action", "conversation_id", "message_id", "read_timestamp"}
    else {}
  }

  /** The payload literal the handler builds for a notification. */
  function Encode(n: Notification): (p: Payload)
    ensures p.Keys == FieldNames(Action(n))
    ensures p["action"] == Action(n)
    ensures p["conversation_id"] == n.conversationId && p["message_id"] == n.messageId
  {
    match n
    case MessageReceived(sender, c, m, t) =>
      map["action" := NewMessageReceived, "sender" := sender, "conversation_id" := c,
          "message_id" := m, "message_timestamp" := t]
    case MessageSent(receiver, c, m) =>
      map["action" := NewMessageSent, "receiver" := receiver, "conversation_id" := c,
          "message_id" := m]
    case MessageDelivered(receiver, c, m, t) =>
      map["action" := NewMessageDelivered, "receiver" := receiver, "conversation_id" := c,
          "message_id" := m, "delivery_timestamp" := t]
    case MessageRead(c, m, t) =>
      map["action" := NewMessageRead, "conversation_id" := c, "message_id" := m,
          "read_timestamp" := t]
  }

  /** What a client reads back: the notification a payload announces, or None
      when its keys are not exactly the documented set of its action. */
  function Decode(p: Payload): Option<Notification> {
    if "action" !in p || p.Keys != FieldNames(p["action"]) then None
    else
      var a := p["action"];
      if a == NewMessageReceived then
        Some(MessageReceived(p["sender"], p["conversation_id"], p["message_id"], p["message_timestamp"]))
      else if a == NewMessageSent then
        Some(MessageSent(p["receiver"], p["conversation_id"], p["message_id"]))
      else if a == NewMessageDelivered then
        Some(MessageDelivered(p["receiver"], p["conversation_id"], p["message_id"], p["delivery_timestamp"]))
      else
        Some(MessageRead(p["conversation_id"], p["message_id"], p["read_timestamp"]))
  }

  /** No payload loses or mixes up an event field: decoding recovers the
      notification exactly. */
  lemma DecodeEncode(n: Notification)
    ensures Decode(Encode(n)) == Some(n)
  {
  }

  /** A payload that decodes is exactly the payload built for what it
      decodes to: no extra key, no other value. */
  lemma EncodeDecode(p: Payload, n: Notification)
    requires Decode(p) == Some(n)
    ensures Encode(n) == p
  {
    var e := Encode(n);
    assert e.Keys == p.Keys;
    forall k | k in p
      ensures e[k] == p[k]
    {
    }
  }

  /** Distinct notifications never share a payload, so the action key alone
      tells the four kinds apart. */
  lemma EncodeInjective(n1: Notification, n2: Notification)
    requires Encode(n1) == Encode(n2)
    ensures n1 == n2
  {
    DecodeEncode(n1);
    DecodeEncode(n2);
  }
}

=== FILE: profiles.dfy ===
/** The public profile mirror: when a user document is updated, its public
    fields are copied to `public_profile/{phone_number}`. */
module Profiles {
  import opened Optional
  import opened Users

  /** A public profile document. `number` is the user's phone number and
      `serverId` the user's uid. */
  datatype PublicProfile = PublicProfile(
    name: string,
    number: string,
    profilePhotoPath: string,
    profilePhotoUrl: string,
    deviceInstanceId: string,
    serverId: string,
    status: string,
    statusTimestamp: string)

  /** The `public_profile` collection, by document id. */
  type PublicProfiles = map<string, PublicProfile>

  /** Every field the projection copies is present. The store refuses to
      write a field whose value is undefined, so only such a record yields a
      profile. */
  predicate IsComplete(record: UserRecord) {
    && record.name.Some?
    && record.phoneNumber.Some?
    && record.profilePhotoPath.Some?
    && record.profilePhotoUrl.Some?
    && record.deviceInstanceId.Some?
    && record.uid.Some?
    && record.status.Some?
    && record.statusTimestamp.Some?
  }

  /** The profile built from a user record, field for field. */
  function Project(record: UserRecord): Option<PublicProfile> {
    if !IsComplete(record) then None
    else Some(PublicProfile(
      record.name.value,
      record.phoneNumber.value,
      record.profilePhotoPath.value,
      record.profilePhotoUrl.value,
      record.deviceInstanceId.value,
      record.uid.value,
      record.status.value,
      record.statusTimestamp.value))
  }

  /** The update handler: `after` is the user document after the change, or
      None when it no longer exists. The profile is written, merging over
      every profile field, under the document id equal to the phone number. */
  function UpdatePublicUserProfile(profiles: PublicProfiles, after: Option<UserRecord>): (r: PublicProfiles)
    ensures after.None? ==> r == profiles
    ensures after.Some? && !IsComplete(after.value) ==> r == profiles
    ensures after.Some? && IsComplete(after.value) ==>
      var record := after.value;
      var phone := record.phoneNumber.value;
      && r.Keys == profiles.Keys + {phone}
      && r[phone].number == phone
      && r[phone].serverId == record.uid.value
      && Some(r[phone].name) == record.name
      && Some(r[phone].profilePhotoPath) == record.profilePhotoPath
      && Some(r[phone].profilePhotoUrl) == record.profilePhotoUrl
      && Some(r[phone].deviceInstanceId) == record.deviceInstanceId
      && Some(r[phone].status) == record.status
      && Some(r[phone].statusTimestamp) == record.statusTimestamp
      && forall k :: k in profiles && k != phone ==> r[k] == profiles[k]
  {
    match after
    case None => profiles
    case Some(record) =>
      match Project(record)
      case None => profiles
      case Some(p) => profiles[p.number := p]
  }

  /** The projection loses nothing: a complete record and its profile
      determine each other. */
  lemma ProjectIsLossless(record: UserRecord, p: PublicProfile)
    ensures Project(record) == Some(p) <==>
      record == UserRecord(Some(p.number), Some(p.serverId), Some(p.deviceInstanceId), Some(p.name),
                           Some(p.profilePhotoPath), Some(p.profilePhotoUrl), Some(p.status), Some(p.statusTimestamp))
  {
  }

  /** Every profile is stored under its own phone number. */
  predicate KeyedByNumber(profiles: PublicProfiles) {
    forall k :: k in profiles ==> profiles[k].number == k
  }

  /** The handler keeps every profile under its own phone number. */
  lemma UpdateKeepsKeyedByNumber(profiles: PublicProfiles, after: Option<UserRecord>)
    requires KeyedByNumber(profiles)
    ensures KeyedByNumber(UpdatePublicUserProfile(profiles, after))
  {
  }

  /** A redelivered update event leaves the same profiles as one delivery. */
  lemma UpdateIdempotent(profiles: PublicProfiles, after: Option<UserRecord>)
    ensures UpdatePublicUserProfile(UpdatePublicUserProfile(profiles, after), after)
         == UpdatePublicUserProfile(profiles, after)
  {
  }
}

=== FILE: reconciler.dfy ===
/** The token reconciler: scan the per-token results of one send and, when
    the transport called the token permanently dead, overwrite the resolved
    user's device token with "null". */
module Reconciler {
  import opened Optional
  import opened Users

  const InvalidRegistrationToken: string := "messaging/invalid-registration-token"
  const RegistrationTokenNotRegistered: string := "messaging/registration-token-not-registered"

  /** One delivery result: the error code it carries, or None on success. */
  type DeliveryResult = Option<string>

  /** An error whose code is one of the two permanent codes. Any other code is
      only logged. */
  predicate IsPermanent(result: DeliveryResult) {
    result.Some? && (result.value == InvalidRegistrationToken || result.value == RegistrationTokenNotRegistered)
  }

  /** The `tokenRemoved` flag after the `forEach` over the results, visiting
      them in order; once set it stays set. */
  function TokenRemoved(results: seq<DeliveryResult>): (removed: bool)
    ensures removed <==> exists i :: 0 <= i < |results| && IsPermanent(results[i])
  {
    if |results| == 0 then false
    else
      var before := results[..|results| - 1];
      assert forall i :: 0 <= i < |before| ==> before[i] == results[i];
      TokenRemoved(before) || IsPermanent(results[|results| - 1])
  }

  /** What reconciliation did to the store. */
  datatype Repair =
    | Untouched                 // no permanent error: nothing written
    | Repaired(users: Collection)  // the token write succeeded
    | WriteRejected             // the write targeted no document and rejected

  /** Reconcile the resolved user (whose `uid` field is `uid`) after a send
      that returned `results`. The write goes to the document whose id is the
      record's `uid`; an absent uid, or one naming no document, makes the
      update reject. */
  function Reconcile(users: Collection, uid: Option<string>, results: seq<DeliveryResult>): (r: Repair)
    ensures r.Untouched? <==> forall i :: 0 <= i < |results| ==> !IsPermanent(results[i])
    ensures r.WriteRejected? <==> TokenRemoved(results) && !(uid.Some? && HasDoc(users, uid.value))
    ensures r.Repaired? ==>
      && uid.Some?
      && |r.users| == |users|
      && (forall i :: 0 <= i < |users| ==> r.users[i].id == users[i].id)
      && (forall i :: 0 <= i < |users| && users[i].id == uid.value ==>
            r.users[i].record == users[i].record.(deviceInstanceId := Some(NullToken)))
      && (forall i :: 0 <= i < |users| && users[i].id != uid.value ==> r.users[i] == users[i])
    ensures r.Repaired? ==> OnlyTokensCleared(users, r.users)
  {
    if !TokenRemoved(results) then Untouched
    else if uid.Some? && HasDoc(users, uid.value) then Repaired(ClearToken(users, uid.value))
    else WriteRejected
  }

  /** Reconciliation writes a constant: repeating it with the same permanent
      result leaves the store as one round left it. */
  lemma ReconcileIdempotent(users: Collection, uid: Option<string>, results: seq<DeliveryResult>)
    requires Reconcile(users, uid, results).Repaired?
    ensures Reconcile(Reconcile(users, uid, results).users, uid, results) == Reconcile(users, uid, results)
  {
    var once := Reconcile(users, uid, results).users;
    var id := uid.value;
    var i :| 0 <= i < |users| && users[i].id == id;
    assert once[i].id == id;
    assert ClearToken(once, id) == once;
  }

  /** Reconciling a user whose token is already "null" writes the same value
      again: the store does not change. */
  lemma ReconcileClearedIsNoop(users: Collection, uid: Option<string>, results: seq<DeliveryResult>)
    requires uid.Some?
    requires forall i :: 0 <= i < |users| && users[i].id == uid.value ==>
      users[i].record.deviceInstanceId == Some(NullToken)
    ensures Reconcile(users, uid, results).Repaired? ==> Reconcile(users, uid, results).users == users
  {
    if Reconcile(users, uid, results).Repaired? {
      var cleared := ClearToken(users, uid.value);
      forall i | 0 <= i < |users|
        ensures cleared[i] == users[i]
      {
        if users[i].id == uid.value {
          assert users[i].record.deviceInstanceId == Some(NullToken);
          assert users[i].record.(deviceInstanceId := Some(NullToken)) == users[i].record;
        }
      }
      assert cleared == users;
    }
  }
}

=== FILE: users.dfy ===
/** The `users` collection: user documents, the phone-number query that finds
    a recipient, and the one write this subsystem makes to a user document
    (overwriting its device token with the string "null"). */
module Users {
  import opened Optional

  /** The value written over a device token the transport has declared dead. */
  const NullToken: string := "null"

  /** The fields of a user document this subsystem reads. Any of them may be
      absent from a stored document. */
  datatype UserRecord = UserRecord(
    phoneNumber: Option<string>,
    uid: Option<string>,
    deviceInstanceId: Option<string>,
    name: Option<string>,
    profilePhotoPath: Option<string>,
    profilePhotoUrl: Option<string>,
    status: Option<string>,
    statusTimestamp: Option<string>)

  /** A stored document: its document id and its data. */
  datatype UserDoc = UserDoc(id: string, record: UserRecord)

  /** The collection, in the order the backend returns documents to a query
      without an explicit ordering. Nothing here assumes that order is by
      id, or that ids are unique: a token write reaches every document
      carrying the written id. */
  type Collection = seq<UserDoc>

  predicate HasPhone(d: UserDoc, phone: string) {
    d.record.phoneNumber == Some(phone)
  }

  predicate HasDoc(users: Collection, id: string) {
    exists i :: 0 <= i < |users| && users[i].id == id
  }

  /** `where('phone_number', '==', phone)`: the matching documents, in
      collection order. */
  function Query(users: Collection, phone: string): (q: Collection)
    ensures |q| <= |users|
    ensures forall d :: d in q <==> d in users && HasPhone(d, phone)
  {
    if |users| == 0 then []
    else
      var rest := Query(users[1..], phone);
      assert forall d :: d in users <==> d == users[0] || d in users[1..];
      if HasPhone(users[0], phone) then [users[0]] + rest else rest
  }

  /** `results[0].docs[0].data()`: the first matching document, or None when
      the query matched nothing (the handler then dereferences `undefined`
      and the rest of the handler is skipped). */
  function Resolve(users: Collection, phone: string): (r: Option<UserDoc>)
    ensures r.Some? ==> r.value in users && HasPhone(r.value, phone)
    ensures r.None? <==> forall i :: 0 <= i < |users| ==> !HasPhone(users[i], phone)
  {
    var q := Query(users, phone);
    assert forall i :: 0 <= i < |users| && HasPhone(users[i], phone) ==> users[i] in q;
    if |q| == 0 then None else Some(q[0])
  }

  /** Index `i` holds the first document whose phone number is `phone`. */
  predicate IsFirstMatch(users: Collection, phone: string, i: int) {
    && 0 <= i < |users|
    && HasPhone(users[i], phone)
    && forall j :: 0 <= j < i ==> !HasPhone(users[j], phone)
  }

  /** First match wins: the resolved recipient is the earliest document in
      collection order whose phone number matches, whatever comes after it. */
  lemma {:induction false} ResolveIsFirstMatch(users: Collection, phone: string, i: int)
    requires IsFirstMatch(users, phone, i)
    ensures Resolve(users, phone) == Some(users[i])
    decreases i
  {
    if i > 0 {
      assert !HasPhone(users[0], phone);
      assert Query(users, phone) == Query(users[1..], phone);
      assert IsFirstMatch(users[1..], phone, i - 1) by {
        forall j | 0 <= j < i - 1
          ensures !HasPhone(users[1..][j], phone)
        {
          assert users[1..][j] == users[j + 1];
        }
      }
      ResolveIsFirstMatch(users[1..], phone, i - 1);
    }
  }

  /** A document after its device token has been overwritten with "null";
      every other field, and the id, are kept. */
  function Evicted(d: UserDoc): UserDoc {
    d.(record := d.record.(deviceInstanceId := Some(NullToken)))
  }

  /** `collection('users').doc(id).update('device_instance_id', 'null')` on a
      collection that holds a document with that id. */
  function ClearToken(users: Collection, id: string): Collection {
    seq(|users|, i requires 0 <= i < |users| =>
      if users[i].id == id then Evicted(users[i]) else users[i])
  }

  /** `after` differs from `before` at most by device tokens set to "null":
      same documents, in the same order, with all other fields equal. */
  predicate OnlyTokensCleared(before: Collection, after: Collection) {
    && |after| == |before|
    && forall i :: 0 <= i < |before| ==> after[i] == before[i] || after[i] == Evicted(before[i])
  }

  /** Clearing is the only write and it composes: two rounds of clearing are
      still only clearing. */
  lemma OnlyTokensClearedTransitive(a: Collection, b: Collection, c: Collection)
    requires OnlyTokensCleared(a, b) && OnlyTokensCleared(b, c)
    ensures OnlyTokensCleared(a, c)
  {
    forall i | 0 <= i < |a|
      ensures c[i] == a[i] || c[i] == Evicted(a[i])
    {
      assert Evicted(Evicted(a[i])) == Evicted(a[i]);
    }
  }

  /** Every document with id `id` holds the token "null". */
  predicate TokenNullFor(users: Collection, id: string) {
    forall i :: 0 <= i < |users| && users[i].id == id ==> users[i].record.deviceInstanceId == Some(NullToken)
  }

  /** A token once cleared stays cleared under any later clearing. */
  lemma ClearedStaysCleared(users: Collection, id: string, after: Collection)
    requires OnlyTokensCleared(ClearToken(users, id), after)
    ensures TokenNullFor(after, id)
  {
  }

  /** Clearing one document's token never changes which document a phone
      query selects: the selected document is the same, with its token
      replaced only when it is the cleared document itself. */
  lemma {:induction false} ResolveAfterClear(users: Collection, id: string, phone: string)
    ensures Resolve(users, phone).None? ==> Resolve(ClearToken(users, id), phone).None?
    ensures Resolve(users, phone).Some? ==>
      var d := Resolve(users, phone).value;
      Resolve(ClearToken(users, id), phone) == Some(if d.id == id then Evicted(d) else d)
    decreases |users|
  {
    var cleared := ClearToken(users, id);
    if |users| > 0 {
      assert cleared[1..] == ClearToken(users[1..], id);
      assert HasPhone(cleared[0], phone) == HasPhone(users[0], phone);
      assert cleared[0] == if users[0].id == id then Evicted(users[0]) else users[0];
      ResolveAfterClear(users[1..], id, phone);
      if !HasPhone(users[0], phone) {
        assert Query(users, phone) == Query(users[1..], phone);
        assert Query(cleared, phone) == Query(cleared[1..], phone);
      }
    } else {
      assert cleared == [];
    }
  }
}
